=== FILE: README.md ===
# Dirty-bit detection, modelled in Dafny

This project models the core of a GitHub Action that decides which "repo bits" of a
monorepo are dirty between two commits. A rules file maps each bit name to a list of
glob patterns. The action works out a commit range from the triggering event, or from
explicit `base`/`head` inputs. It asks the GitHub compare API for the files changed in
that range and matches each bit's patterns against those files. The report it produces
lists every bit as clean or dirty, with the matched files as evidence.

Whenever the action cannot trust the list of changed files, it fails safe and marks
every bit dirty with a reason. This happens when:
- a release event finds fewer than two published releases among the ten newest
  releases, even if older published releases exist;
- the range contains the null commit;
- the compare API truncated the commit list.

The model follows the action's stages as pure functions over an immutable `Context`
record. The stages are:

- `ActionInputs`: validation of the action inputs (`getInputs`).
- `RuleSet`: the reserved-word check on bit names (`loadRules`).
- `State`: the per-run context and `markAllDirty`.
- `CommitRange`: commit-range discovery per event, including the previous-release
  lookup (`findCommitRange`, `findPreviousRelease`).
- `ChangedFiles`: the compare call, the null-commit and truncation checks, and rename
  expansion (`compareCommits`, `extract`, `extractRenamed`).
- `Matcher`: the per-bit pattern fold with inclusion and `!`-exclusion patterns (`match`).
- `Detection`: partitioning into clean and dirty bits, the summary flags and the full
  pipeline (`detect`, `detectDirtyBits`).
- `Outputs`: the reserved output names.
- `Scenarios`: the worked examples of the repository's own test suite.
- `Text`, `Wrappers`, `Positions`: string helpers (split, join, decimal rendering),
  `Option`/`Result`, and the counting of list positions a filter keeps.

The glob engine is a parameter: `Glob = (string, string) -> bool` answers whether a
file name matches a pattern. For a `!`-pattern it is the engine that performs the
negation. The GitHub API is a parameter as well: `Api` holds the repository's releases,
newest first, and a compare function. The event payload is an `Event` value; its `Other` variant admits only event names the action does not handle.

The `rewrite-null-commit` input is read and stored but no stage consults it. The lemma
`Detection.RewriteNullCommitIgnored` states this.

A bit's matched files are a list, not a set. Each inclusion pattern's matches are
appended with `concat` (src/core.ts:264), so a file matched by two inclusion patterns
appears twice. `Matcher.NoDeduplication` states this.

## Model

| member | source | states |
|---|---|---|
| RuleSet.LoadRules | src/core.ts:109-117 | the rules are accepted unchanged iff no bit name is a reserved output name; otherwise the error names the first reserved bit name in rule order |
| RuleSet.FirstReserved | src/core.ts:110-113 | returns the index of the first rule whose bit name is reserved, and none iff no rule has a reserved name |
| RuleSet.ReservedWordScenario | __tests__/core.test.ts:18-22 | a rules file with a bit named `some-dirty` is rejected with a reserved-word error for that name |
| State.InitialContext | src/core.ts:310-312 | a fresh context carries the inputs, has no compare URL and no reason, and is not marked all-dirty |
| State.MarkAllDirty | src/core.ts:120-124 | sets the all-dirty flag and its reason, and leaves inputs, range and compare URL unchanged |
| CommitRange.ListReleases | src/core.ts:130 | the release listing is the newest ten releases: the whole list when there are at most ten, otherwise its first ten entries |
| CommitRange.Published | src/core.ts:131 | a tag is kept iff it belongs to a listed release that is neither a draft nor a prerelease |
| CommitRange.PublishedRank | src/core.ts:131 | the published release at position i of the listing has the tag at the position given by the number of published releases before it, so tags keep listing order |
| CommitRange.PublishedCount | src/core.ts:131 | there are exactly as many tags as published releases in the listing |
| CommitRange.FindPreviousRelease | src/core.ts:126-142 | fewer than two published releases on the page marks the context all-dirty with "unable to find previous release" and yields ""; a newest published tag other than the current release is an error; otherwise the second published tag is returned and the context is unchanged |
| CommitRange.FindPreviousReleaseSound | src/core.ts:131-141 | a successful lookup on a page with at least two published releases returns the tag of a published release that directly follows the current release among the published releases of the page |
| CommitRange.FindPreviousReleaseComplete | src/core.ts:131-141 | when the current release is the newest published release on the page and a later published one exists, the lookup returns exactly that next published tag |
| CommitRange.FindCommitRange | src/core.ts:144-191 | explicit base and head inputs win over the event; pull request, push and workflow-dispatch events set base and head from their payload; a release event takes its head from the payload and its base from the previous-release lookup, failing exactly when that lookup fails and carrying over its fail-safe; any other event is an unsupported-event error; the all-dirty flag is never cleared and stays consistent with its reason |
| CommitRange.ExplicitRangeIgnoresEvent | src/core.ts:145-151 | with both explicit inputs present, the outcome does not depend on the event or the API |
| CommitRange.NoPreviousReleaseFailsSafe | src/core.ts:133-136 | a release event with fewer than two published releases yields a context marked all-dirty with the no-previous-release reason |
| ChangedFiles.Extract | src/core.ts:194-201 | keeps name, status and sha, and carries the previous name only for renamed entries |
| ChangedFiles.ExtractRenamed | src/core.ts:207-210 | the synthetic record is named after the previous name (or "" when none) and records the new name as its current name |
| ChangedFiles.Renames | src/core.ts:239 | an entry is kept iff it is in the diff and its status is "renamed" |
| ChangedFiles.RenamesMultiset | src/core.ts:239 | every renamed entry is kept as often as it occurs in the diff, and no other entry is kept |
| ChangedFiles.RenameCount | src/core.ts:236-240 | the expanded list has one record per diff entry plus one per renamed entry of the diff |
| ChangedFiles.ExpandRenames | src/core.ts:236-240 | the changed-file list is the extracted diff followed by one synthetic record per renamed entry, in diff order |
| ChangedFiles.RenameIndex | src/core.ts:239 | a renamed entry at position i is the renamed entry that follows all renames before position i |
| ChangedFiles.RenameYieldsPair | src/core.ts:236-240 | every renamed entry contributes both its new name and its previous name to the changed files |
| ChangedFiles.NeverBothNames | src/core.ts:86-98 | no changed-file record has both a previous name and a current name |
| ChangedFiles.AddedFileScenario | __tests__/core.test.ts:32-53 | an added file yields exactly one record with no previous or current name |
| ChangedFiles.RenamedFileScenario | __tests__/core.test.ts:55-81 | a renamed file yields its record followed by a record under its previous name |
| ChangedFiles.TruncatedReason | src/core.ts:233 | the truncation reason starts with the compared range `base...head` and ends with a closing parenthesis |
| ChangedFiles.NullCommitReason | src/core.ts:221-223 | the null-commit reason names the forty-zero null commit |
| ChangedFiles.FailSafeReasonsDistinct | src/core.ts:223-233 | the truncation, null-commit and no-previous-release reasons never coincide, so the reported reason identifies the fail-safe |
| ChangedFiles.CompareCommits | src/core.ts:212-247 | an all-dirty context returns no files unchanged; a null commit in the range fails safe with the null-commit reason; fewer listed than total commits fails safe with the truncation reason and records the compare URL; otherwise the expanded file list is returned with the URL recorded |
| Matcher.Filter | src/core.ts:262-264 | the engine's list matching never lengthens the list |
| Matcher.FilterSpec | src/core.ts:262-264 | the filtered list keeps the input order and holds each file the pattern matches exactly as often as the input does, and no other file |
| Matcher.ApplyPattern | src/core.ts:261-265 | an exclusion pattern never lengthens the accumulated list; an inclusion pattern keeps it as a prefix and adds at most the changed files |
| Matcher.ApplyPatternSpec | src/core.ts:261-265 | an exclusion keeps, in order, each accumulated file the engine accepts as often as it was accumulated; an inclusion appends, in order, each changed file the pattern matches as often as it occurs among the changed files |
| Matcher.MatchPatterns | src/core.ts:259-269 | the pattern loop never lists a name that is neither in the starting list nor a changed file |
| Matcher.MatchMembership | src/core.ts:258-269 | a file ends up in a bit's matched list iff some inclusion pattern matched it and every later exclusion pattern kept it |
| Matcher.MatchBit | src/core.ts:270-273 | a bit's result always carries its matched list and is dirty iff that list is non-empty |
| Matcher.DirtyIff | src/core.ts:258-273 | a bit is dirty iff some changed file is added by an inclusion pattern and survives every later exclusion; matched files are always changed files |
| Matcher.MatchRules | src/core.ts:256-275 | one result per rule, in rule order, each the fold of that rule's patterns |
| Matcher.Match | src/core.ts:249-277 | an all-dirty context yields no per-bit matching; otherwise every rule is matched against the changed file names |
| Matcher.ExclusionDropsMatches | src/core.ts:261-262 | a file matched by the pattern an exclusion negates is absent after the exclusion |
| Matcher.NoDeduplication | src/core.ts:264 | two inclusion patterns in a row list the first one's matches followed by the second one's, with nothing merged |
| Matcher.MatchedTwiceListedTwice | src/core.ts:264 | a changed file that two inclusion patterns in a row both match appears at least twice in the matched list |
| Detection.Partition | src/core.ts:292-294 | the clean and dirty lists together hold one entry per match result; which entry goes where is stated by the three lemmas below |
| Detection.PartitionPermutes | src/core.ts:292-294 | the clean and dirty lists together hold every bit name exactly as often as the match results do |
| Detection.PartitionKeepsOrder | src/core.ts:292-294 | the clean and dirty lists each keep rule order |
| Detection.PartitionByFlag | src/core.ts:292-294 | a bit is listed dirty iff its match result is dirty, and clean iff it is not |
| Detection.BitsMap | src/core.ts:270 | the per-bit map has exactly the matched bit names as keys |
| Detection.BitsMapLookup | src/core.ts:270 | with distinct bit names, each bit maps to its own match result |
| Detection.Assemble | src/core.ts:283-307 | the summary flags agree with the clean and dirty lists; the reason, range and URL are copied from the context; in fail-safe mode every bit is dirty |
| Detection.AssembleFailSafe | src/core.ts:286-290 | in fail-safe mode every rule's bit is dirty with no matched files, no bit is clean, and all-dirty holds |
| Detection.AssembleNormal | src/core.ts:291-295 | in normal mode every bit's entry carries its matched files, dirty bits are exactly the bits whose result is dirty, and clean bits the rest |
| Detection.Detect | src/core.ts:279-308 | fails only when commit-range discovery fails; otherwise clean and dirty bits are disjoint, together cover every rule's bit, agree with the summary flags, and the presence of a reason decides between fail-safe and normal outcome; the reported range, compare URL and reason are those of the context after the compare step |
| Detection.DetectDirtyBits | src/core.ts:310-315 | a reserved bit name is rejected before any network step; valid rules always run detection, which fails exactly when commit-range discovery fails; a successful run reports the range, compare URL and reason of the context after the compare step; a successful run has no reserved names and a fail-safe or normal outcome as its reason says |
| Detection.DetectMatchesEachRule | src/core.ts:279-282 | in normal mode each bit's entry is the match of that rule's patterns against the changed files |
| Detection.TruncationFailsSafe | src/core.ts:229-235 | a truncated compare response makes every bit dirty with the truncation reason |
| Detection.NullCommitFailsSafe | src/core.ts:221-225 | a null commit in the range makes every bit dirty with the null-commit reason |
| Detection.RewriteNullCommitIgnored | src/input.ts:37 | the outcome of detection does not depend on the rewrite-null-commit input |
| Detection.ExplicitInputsShortCircuit | src/input.ts:29-36 | accepted inputs with an explicit base give a commit range equal to the inputs, whatever the event |
| ActionInputs.GetRequiredInput | src/input.ts:16-21 | a required input is accepted iff its value is non-empty, and the error names the missing input |
| ActionInputs.ParseRepository | src/input.ts:21-27 | an accepted repository string names an owner and repository, both non-empty, split at the first slash; otherwise the error carries the repository string |
| ActionInputs.ParseRepositoryComplete | src/input.ts:22-25 | every string of the form owner/repo with non-empty slash-free owner is accepted with that owner and repo |
| ActionInputs.GetInputs | src/input.ts:14-39 | inputs are accepted iff token, rules file and repository are present, the repository names an owner and repository, and base and head are both given or both absent; the first failing check, in the order token, rules file, repository presence, repository form, names the error (the missing input, or the invalid repository string); an unpaired-range error arises iff every earlier check passes and exactly one of base and head is given; rewrite-null-commit holds iff its value is exactly "true" |
| Text.Split | src/input.ts:22 | splitting yields at least one part, no part contains the separator, and joining the parts with the separator gives back the string |
| Text.SplitJoin | src/input.ts:22 | splitting a string at a separator and joining the parts back gives the string; splitting a join of separator-free parts gives the parts |
| Scenarios.BackendScenario | __tests__/core.test.ts:84-114 | the backend bit of the test rules is dirty with exactly the backend files matched |
| Scenarios.FrontendScenario | __tests__/core.test.ts:84-114 | the frontend bit keeps its files after the exclusions and re-adds the explicitly included script |
| Scenarios.WorkerScenario | __tests__/core.test.ts:84-114 | the worker bit matches no changed file and is clean |
| Scenarios.NoPreviousReleaseScenario | __tests__/core.test.ts:116-135 | a release event in a repository with a single release marks everything dirty with the no-previous-release reason |

## Left out

- Network calls to the GitHub API are not modelled. They are replaced by the `Api` value, and a failing request is not modelled.
- Glob syntax is not modelled. Pattern matching is the `Glob` parameter; the scenarios give its answers as a table.
- Reading and parsing the YAML rules file is not modelled: the rules arrive as a parsed sequence. A read or parse failure and a non-list pattern value are not modelled.
- Logging through the actions toolkit is not modelled, nor are the debug and group calls. They do not affect results.
- Writing outputs and the results file, and the entry point that runs the pipeline, are not modelled. Only the reserved names are used, by the rules check.
- The toolkit's own input lookup is not modelled: environment variables and whitespace trimming. A raw input map stands in for it, and a missing key reads as "".
- The ordering JavaScript applies to integer-like object keys is not modelled. Rules are a sequence in the order their keys are enumerated.
- Detection.Detect: requires distinct bit names, because the keys of the parsed rules object are unique.
- Detection.DetectDirtyBits: requires distinct bit names, for the same reason.
- The texts of thrown error messages are not modelled. Errors are values with the data the messages carry. The fail-safe reasons, which are reported as output, are modelled as exact strings.
- Text.NatToString: renders commit counts in plain decimal. JavaScript's exponent notation for numbers of 1e21 and above is not modelled, since commit counts never reach it.
- Malformed event payloads are not modelled. For example, a workflow-dispatch payload whose inputs lack `base` or `head` would yield undefined base and head, and one with no `inputs` object throws.
- Asynchronous execution is not modelled. The stages run in sequence in the source, so the model composes them as functions.

=== FILE: ActionInputs.dfy ===
/** Validation of the action's inputs. The raw inputs are the values the
    runner's input lookup returns, keyed by input name. */
module ActionInputs {
  import opened Wrappers
  import opened Text

  datatype Inputs = Inputs(
    token: string,
    rulesFile: string,
    resultsFile: string,
    owner: string,
    repo: string,
    base: string,
    head: string,
    rewriteNullCommit: bool)

  datatype InputError =
    | MissingInput(name: string)
    | InvalidRepository(repository: string)
    | UnpairedRange

  type RawInputs = map<string, string>

  /** An input that was not supplied reads as the empty string. */
  function GetInput(raw: RawInputs, name: string): string {
    if name in raw then raw[name] else ""
  }

  /** A required input: supplying nothing (or the empty string) is an error. */
  function GetRequiredInput(raw: RawInputs, name: string): (r: Result<string, InputError>)
    ensures r.Ok? <==> name in raw && raw[name] != ""
    ensures r.Ok? ==> r.value == raw[name]
    ensures r.Err? ==> r.error == MissingInput(name)
  {
    var v := GetInput(raw, name);
    if v == "" then Err(MissingInput(name)) else Ok(v)
  }

  /** `repository` starts with `owner/repo`, both non-empty and free of
      `/`, and whatever follows (if anything) starts with another `/`. */
  ghost predicate NamesRepository(repository: string, owner: string, repo: string) {
    && owner != [] && repo != []
    && '/' !in owner && '/' !in repo
    && |owner| + 1 + |repo| <= |repository|
    && repository[..|owner|] == owner
    && repository[|owner|] == '/'
    && repository[|owner| + 1..|owner| + 1 + |repo|] == repo
    && (|owner| + 1 + |repo| == |repository| || repository[|owner| + 1 + |repo|] == '/')
  }

  /** The owner and repository name are the first two `/`-separated
      segments; either being empty or missing rejects the input. */
  function ParseRepository(repository: string): (r: Result<(string, string), InputError>)
    ensures r.Ok? ==> NamesRepository(repository, r.value.0, r.value.1)
    ensures r.Err? ==> r.error == InvalidRepository(repository)
  {
    var parts := Split(repository, '/');
    if parts[0] == "" || |parts| < 2 || parts[1] == "" then
      Err(InvalidRepository(repository))
    else
      JoinTwoSegments(parts);
      Ok((parts[0], parts[1]))
  }

  /** Joining at least two parts puts the first two in front, separated. */
  lemma JoinTwoSegments(parts: seq<string>)
    requires |parts| >= 2
    requires forall i :: 0 <= i < |parts| ==> '/' !in parts[i]
    requires parts[0] != [] && parts[1] != []
    ensures NamesRepository(Join(parts, '/'), parts[0], parts[1])
  {
    var s := Join(parts, '/');
    var tail := Join(parts[1..], '/');
    assert s == parts[0] + ['/'] + tail;
    if |parts| == 2 {
      assert tail == parts[1];
    } else {
      assert tail == parts[1] + ['/'] + Join(parts[2..], '/');
    }
  }

  /** Conversely, every repository string of the shape `owner/repo[/...]`
      is accepted with exactly that owner and repository name. */
  lemma ParseRepositoryComplete(repository: string, owner: string, repo: string)
    requires NamesRepository(repository, owner, repo)
    ensures ParseRepository(repository) == Ok((owner, repo))
  {
    var rest := repository[|owner|..];
    assert repository == owner + rest;
    SplitFirst(repository, owner, rest);
    var afterOwner := rest[1..];
    var n := |repo|;
    assert afterOwner == repo + afterOwner[n..];
    SplitFirst(afterOwner, repo, afterOwner[n..]);
    var parts := Split(repository, '/');
    assert parts[1] == repo;
  }

  /** A `/`-free prefix ended by `/` (or by the end of the string) is the
      first segment, and the rest splits on its own. */
  lemma SplitFirst(s: string, p: string, q: string)
    requires s == p + q && '/' !in p
    requires q == [] || q[0] == '/'
    ensures Split(s, '/')[0] == p
    ensures q != [] ==> |Split(s, '/')| >= 2 && Split(s, '/')[1..] == Split(q[1..], '/')
  {
    if q != [] {
      IndexOfAfterPrefix(p, '/', q);
      assert s[..|p|] == p;
      assert s[|p| + 1..] == q[1..];
    } else {
      assert s == p;
    }
  }

  /** What every accepted set of raw inputs satisfies. */
  ghost predicate Acceptable(raw: RawInputs) {
    && GetInput(raw, "token") != ""
    && GetInput(raw, "rules-file") != ""
    && GetInput(raw, "repository") != ""
    && ParseRepository(GetInput(raw, "repository")).Ok?
    && (GetInput(raw, "base") == "" <==> GetInput(raw, "head") == "")
  }

  /** Reads and validates the inputs in the order the action does. */
  function GetInputs(raw: RawInputs): (r: Result<Inputs, InputError>)
    ensures r.Ok? <==> Acceptable(raw)
    ensures r.Ok? ==>
      && r.value.token == raw["token"]
      && r.value.rulesFile == raw["rules-file"]
      && r.value.resultsFile == GetInput(raw, "results-file")
      && NamesRepository(raw["repository"], r.value.owner, r.value.repo)
      && r.value.base == GetInput(raw, "base")
      && r.value.head == GetInput(raw, "head")
      && (r.value.base == "" <==> r.value.head == "")
      && (r.value.rewriteNullCommit <==> GetInput(raw, "rewrite-null-commit") == "true")
    ensures GetInput(raw, "token") == "" ==> r == Err(MissingInput("token"))
    ensures GetInput(raw, "token") != "" && GetInput(raw, "rules-file") == "" ==>
      r == Err(MissingInput("rules-file"))
    ensures (GetInput(raw, "token") != "" && GetInput(raw, "rules-file") != ""
             && GetInput(raw, "repository") == "") ==>
      r == Err(MissingInput("repository"))
    ensures (GetInput(raw, "token") != "" && GetInput(raw, "rules-file") != ""
             && GetInput(raw, "repository") != "" && ParseRepository(raw["repository"]).Err?) ==>
      r == Err(InvalidRepository(raw["repository"]))
    ensures r == Err(UnpairedRange) <==>
      && GetInput(raw, "token") != ""
      && GetInput(raw, "rules-file") != ""
      && GetInput(raw, "repository") != ""
      && ParseRepository(GetInput(raw, "repository")).Ok?
      && (GetInput(raw, "base") == "" <==> GetInput(raw, "head") != "")
  {
    var token :- GetRequiredInput(raw, "token");
    var rulesFile :- GetRequiredInput(raw, "rules-file");
    var resultsFile := GetInput(raw, "results-file");
    var repository :- GetRequiredInput(raw, "repository");
    var ownerRepo :- ParseRepository(repository);
    var base := GetInput(raw, "base");
    var head := GetInput(raw, "head");
    if (base != "" && head == "") || (head != "" && base == "") then
      Err(UnpairedRange)
    else
      Ok(Inputs(token, rulesFile, resultsFile, ownerRepo.0, ownerRepo.1, base, head,
                GetInput(raw, "rewrite-null-commit") == "true"))
  }
}

=== FILE: ChangedFiles.dfy ===
/** Collection of the changed files between the resolved base and head,
    with the fail-safes for null commits and truncated comparisons, and the
    expansion of each rename into two records. */
module ChangedFiles {
  import opened Wrappers
  import opened Text
  import opened State
  import opened CommitRange
  import opened Positions

  /** One file entry of a comparison response. */
  datatype DiffEntry = DiffEntry(filename: string, status: string, sha: string, previousFilename: Option<string>)

  /** A comparison response: how many commits it lists, how many the
      range really holds, and the changed files. */
  datatype CompareResponse = CompareResponse(htmlUrl: string, commits: nat, totalCommits: nat, files: seq<DiffEntry>)

  /** A changed file as the matcher sees it. At most one of
      `previousFilename` and `currentFilename` is set. */
  datatype ChangedFile = ChangedFile(
    filename: string,
    status: string,
    sha: string,
    previousFilename: Option<string>,
    currentFilename: Option<string>)

  type Hub = Api<CompareResponse>

  const Renamed: string := "renamed"

  /** The all-zero commit id that stands for a ref that does not exist. */
  const NullCommit: string := "0000000000000000000000000000000000000000"

  predicate IsRename(e: DiffEntry) {
    e.status == Renamed
  }

  /** The primary record of an entry: a rename keeps its old name as
      `previousFilename`; nothing else has one. */
  function Extract(e: DiffEntry): (f: ChangedFile)
    ensures f.filename == e.filename && f.status == e.status && f.sha == e.sha
    ensures f.previousFilename == (if IsRename(e) then e.previousFilename else None)
    ensures f.currentFilename == None
  {
    ChangedFile(e.filename, e.status, e.sha, if IsRename(e) then e.previousFilename else None, None)
  }

  /** The synthetic record of a rename: the old name as `filename` (empty
      when the entry lacks one) and the new name as `currentFilename`. */
  function ExtractRenamed(e: DiffEntry): (f: ChangedFile)
    ensures f.filename == e.previousFilename.GetOr("")
    ensures f.currentFilename == Some(e.filename) && f.previousFilename == None
    ensures f.status == e.status && f.sha == e.sha
  {
    ChangedFile(e.previousFilename.GetOr(""), e.status, e.sha, None, Some(e.filename))
  }

  /** The renamed entries, in response order. */
  function Renames(es: seq<DiffEntry>): (rs: seq<DiffEntry>)
    ensures |rs| <= |es|
    ensures forall e :: e in rs <==> e in es && IsRename(e)
  {
    if es == [] then []
    else if IsRename(es[0]) then [es[0]] + Renames(es[1..])
    else Renames(es[1..])
  }

  /** Each renamed entry is kept as often as it occurs, and nothing else is. */
  lemma {:induction false} RenamesMultiset(es: seq<DiffEntry>)
    ensures forall e :: multiset(Renames(es))[e] == (if IsRename(e) then multiset(es)[e] else 0)
  {
    if es != [] {
      RenamesMultiset(es[1..]);
      assert es == [es[0]] + es[1..];
    }
  }

  /** The positions of the renamed entries in a diff. */
  ghost function RenamePositions(es: seq<DiffEntry>): set<nat> {
    set i: nat | i < |es| && IsRename(es[i])
  }

  /** There is one synthetic record per renamed entry: `ExpandRenames`
      adds exactly as many records as the diff has renames. */
  lemma {:induction false} RenameCount(es: seq<DiffEntry>)
    ensures |Renames(es)| == |RenamePositions(es)|
    ensures |ExpandRenames(es)| == |es| + |RenamePositions(es)|
  {
    if es != [] {
      RenameCount(es[1..]);
      forall i: nat
        ensures i in RenamePositions(es) <==>
          (i == 0 && IsRename(es[0])) || (i > 0 && i - 1 in RenamePositions(es[1..]))
      {
        if 0 < i < |es| {
          assert es[i] == es[1..][i - 1];
        }
      }
      HeadAndShift(RenamePositions(es), IsRename(es[0]), RenamePositions(es[1..]));
    }
  }

  /** Every entry's primary record, in response order, followed by one
      synthetic record per rename, in the order the renames appear. */
  function ExpandRenames(es: seq<DiffEntry>): (fs: seq<ChangedFile>)
    ensures |fs| == |es| + |Renames(es)|
    ensures forall i :: 0 <= i < |es| ==> fs[i] == Extract(es[i])
    ensures forall k :: 0 <= k < |Renames(es)| ==> fs[|es| + k] == ExtractRenamed(Renames(es)[k])
  {
    seq(|es|, i requires 0 <= i < |es| => Extract(es[i]))
      + seq(|Renames(es)|, k requires 0 <= k < |Renames(es)| => ExtractRenamed(Renames(es)[k]))
  }

  /** The rename at position `i` is the `|Renames(es[..i])|`-th rename. */
  lemma {:induction false} RenameIndex(es: seq<DiffEntry>, i: nat)
    requires i < |es| && IsRename(es[i])
    ensures |Renames(es[..i])| < |Renames(es)|
    ensures Renames(es)[|Renames(es[..i])|] == es[i]
    decreases i
  {
    if i == 0 {
      assert es[..0] == [];
    } else {
      RenameIndex(es[1..], i - 1);
      assert es[1..][..i - 1] == es[..i][1..];
      assert es[..i][0] == es[0];
    }
  }

  /** Each rename yields exactly the two records described: the primary
      one with the old name in `previousFilename`, and a later synthetic
      one named by the old name pointing at the new one, with the same
      status and sha. */
  lemma RenameYieldsPair(es: seq<DiffEntry>, i: nat)
    requires i < |es| && IsRename(es[i])
    ensures var fs := ExpandRenames(es);
      var k := |es| + |Renames(es[..i])|;
      && k < |fs|
      && fs[i].filename == es[i].filename
      && fs[i].previousFilename == es[i].previousFilename && fs[i].currentFilename == None
      && fs[k].filename == es[i].previousFilename.GetOr("")
      && fs[k].currentFilename == Some(es[i].filename) && fs[k].previousFilename == None
      && fs[k].sha == fs[i].sha == es[i].sha && fs[k].status == fs[i].status
  {
    RenameIndex(es, i);
  }

  /** No collected record carries both an old and a new name. */
  lemma NeverBothNames(es: seq<DiffEntry>, j: nat)
    requires j < |ExpandRenames(es)|
    ensures ExpandRenames(es)[j].previousFilename == None || ExpandRenames(es)[j].currentFilename == None
  {
  }

  /** A file that was not renamed yields one record with neither name. */
  lemma AddedFileScenario(sha: string)
    ensures ExpandRenames([DiffEntry("file1.txt", "added", sha, None)])
      == [ChangedFile("file1.txt", "added", sha, None, None)]
  {
    var es := [DiffEntry("file1.txt", "added", sha, None)];
    assert Renames(es[1..]) == [];
  }

  /** A renamed file yields its primary record and then its synthetic one. */
  lemma RenamedFileScenario(sha: string, oldName: string, newName: string)
    ensures ExpandRenames([DiffEntry(newName, Renamed, sha, Some(oldName))])
      == [ChangedFile(newName, Renamed, sha, Some(oldName), None),
          ChangedFile(oldName, Renamed, sha, None, Some(newName))]
  {
    var es := [DiffEntry(newName, Renamed, sha, Some(oldName))];
    assert Renames(es[1..]) == [];
  }

  /** The fail-safe reason for a truncated comparison: it names the range
      first and closes with the number of commits listed. */
  function TruncatedReason(base: string, head: string, total: nat, listed: nat): (r: string)
    ensures base + "..." + head <= r
    ensures |r| > 0 && r[|r| - 1] == ')'
  {
    base + "..." + head + " includes " + NatToString(total) + " commits (max " + NatToString(listed) + ")"
  }

  /** The fail-safe reason for a null commit in the range. */
  const NullCommitReason: string := "null commit (" + NullCommit + ") found"

  /** The three fail-safe reasons never coincide, so the reported reason
      tells which fail-safe fired. */
  lemma FailSafeReasonsDistinct(base: string, head: string, total: nat, listed: nat)
    ensures TruncatedReason(base, head, total, listed) != NullCommitReason
    ensures TruncatedReason(base, head, total, listed) != NoPreviousRelease
    ensures NullCommitReason != NoPreviousRelease
  {
    var t := TruncatedReason(base, head, total, listed);
    assert NullCommitReason[|NullCommitReason| - 1] == 'd';
    assert NoPreviousRelease[|NoPreviousRelease| - 1] == 'e';
  }

  /** Lists the changed files of the range. With the fail-safe already set
      nothing happens. A null base or head, or a response listing fewer
      commits than the range holds, sets the fail-safe and yields no
      files; otherwise the files are the response's, renames expanded. */
  function CompareCommits(ctx: Context, api: Hub): (r: (Context, seq<ChangedFile>))
    ensures Monotone(ctx, r.0)
    ensures FlagConsistent(ctx) ==> FlagConsistent(r.0)
    ensures r.0.inputs == ctx.inputs && r.0.base == ctx.base && r.0.head == ctx.head
    ensures r.0.allDirty ==> r.1 == []
    ensures ctx.allDirty ==> r == (ctx, [])
    ensures !ctx.allDirty && (ctx.base == NullCommit || ctx.head == NullCommit) ==>
      r == (MarkAllDirty(ctx, NullCommitReason), [])
    ensures !ctx.allDirty && ctx.base != NullCommit && ctx.head != NullCommit ==>
      var resp := api.compare(ctx.base, ctx.head);
      && r.0.compareCommitsUrl == Some(resp.htmlUrl)
      && (r.0.allDirty <==> resp.commits < resp.totalCommits)
      && (r.0.allDirty ==> r.0.allDirtyReason == Some(TruncatedReason(ctx.base, ctx.head, resp.totalCommits, resp.commits)))
      && (!r.0.allDirty ==> r.0 == ctx.(compareCommitsUrl := Some(resp.htmlUrl)) && r.1 == ExpandRenames(resp.files))
  {
    if ctx.allDirty then (ctx, [])
    else if ctx.base == NullCommit || ctx.head == NullCommit then
      (MarkAllDirty(ctx, NullCommitReason), [])
    else
      var resp := api.compare(ctx.base, ctx.head);
      var ctx' := ctx.(compareCommitsUrl := Some(resp.htmlUrl));
      if resp.commits < resp.totalCommits then
        (MarkAllDirty(ctx', TruncatedReason(ctx.base, ctx.head, resp.totalCommits, resp.commits)), [])
      else
        (ctx', ExpandRenames(resp.files))
  }
}

=== FILE: CommitRange.dfy ===
/** Resolution of the commit range to compare, from explicit inputs or
    from the triggering event. */
module CommitRange {
  import opened Wrappers
  import opened State
  import opened Positions

  /** One entry of the release listing. */
  datatype ReleaseInfo = ReleaseInfo(tagName: string, draft: bool, prerelease: bool)

  /** The names of the events the action derives a commit range from. */
  const HandledEvents: set<string> := {"pull_request", "push", "release", "workflow_dispatch"}

  /** The name of an event the action does not handle. */
  type OtherEventName = s: string | s !in HandledEvents witness ""

  /** The triggering event, one variant per kind the action understands;
      `Other` carries the name of any other event. */
  datatype Event =
    | PullRequest(baseSha: string, headSha: string)
    | Push(before: string, after: string)
    | Release(tagName: string)
    | WorkflowDispatch(base: string, head: string)
    | Other(eventName: OtherEventName)

  /** The hosting service as the pipeline sees it: every release of the
      repository, newest first, and the comparison of two commits. */
  datatype Api<Response> = Api(releases: seq<ReleaseInfo>, compare: (string, string) -> Response)

  /** The listing asks for one page of this many releases. */
  const ReleasePageSize: nat := 10

  const NoPreviousRelease: string := "unable to find previous release"

  /** The single page of releases the listing returns. */
  function ListReleases<R>(api: Api<R>): (page: seq<ReleaseInfo>)
    ensures |page| <= ReleasePageSize
    ensures page <= api.releases
    ensures |api.releases| >= ReleasePageSize ==> |page| == ReleasePageSize
    ensures |api.releases| <= ReleasePageSize ==> page == api.releases
  {
    if |api.releases| <= ReleasePageSize then api.releases else api.releases[..ReleasePageSize]
  }

  predicate IsPublished(r: ReleaseInfo) {
    !r.draft && !r.prerelease
  }

  /** Tags of the published releases (neither draft nor prerelease), in
      listing order. */
  function Published(rs: seq<ReleaseInfo>): (tags: seq<string>)
    ensures |tags| <= |rs|
    ensures forall t :: t in tags ==> exists i :: 0 <= i < |rs| && IsPublished(rs[i]) && rs[i].tagName == t
    ensures forall i :: 0 <= i < |rs| && IsPublished(rs[i]) ==> rs[i].tagName in tags
  {
    if rs == [] then []
    else
      assert forall i :: 0 < i < |rs| ==> rs[i] == rs[1..][i - 1];
      if IsPublished(rs[0]) then [rs[0].tagName] + Published(rs[1..])
      else Published(rs[1..])
  }

  /** The published release at position `i` is the
      `|Published(rs[..i])|`-th tag: tags keep listing order. */
  lemma {:induction false} PublishedRank(rs: seq<ReleaseInfo>, i: nat)
    requires i < |rs| && IsPublished(rs[i])
    ensures |Published(rs[..i])| < |Published(rs)|
    ensures Published(rs)[|Published(rs[..i])|] == rs[i].tagName
    decreases i
  {
    if i == 0 {
      assert rs[..0] == [];
    } else {
      PublishedRank(rs[1..], i - 1);
      assert rs[1..][..i - 1] == rs[..i][1..];
      assert rs[..i][0] == rs[0];
    }
  }

  /** The positions of the published releases in a listing. */
  ghost function PublishedPositions(rs: seq<ReleaseInfo>): set<nat> {
    set i: nat | i < |rs| && IsPublished(rs[i])
  }

  /** There is one tag per published release. */
  lemma {:induction false} PublishedCount(rs: seq<ReleaseInfo>)
    ensures |Published(rs)| == |PublishedPositions(rs)|
  {
    if rs != [] {
      PublishedCount(rs[1..]);
      forall i: nat
        ensures i in PublishedPositions(rs) <==>
          (i == 0 && IsPublished(rs[0])) || (i > 0 && i - 1 in PublishedPositions(rs[1..]))
      {
        if 0 < i < |rs| {
          assert rs[i] == rs[1..][i - 1];
        }
      }
      HeadAndShift(PublishedPositions(rs), IsPublished(rs[0]), PublishedPositions(rs[1..]));
    }
  }

  /** The published releases of `rs` at positions `i < j` are consecutive
      and `i` is the first published one: `rs[j]` is the release published
      just before `rs[i]`. */
  ghost predicate PreviousPublished(rs: seq<ReleaseInfo>, i: nat, j: nat) {
    && i < j < |rs|
    && IsPublished(rs[i]) && IsPublished(rs[j])
    && (forall k :: 0 <= k < i ==> !IsPublished(rs[k]))
    && (forall k :: i < k < j ==> !IsPublished(rs[k]))
  }

  /** Skipping unpublished releases: the first published one heads the list. */
  lemma {:induction false} PublishedFrom(rs: seq<ReleaseInfo>, k: nat)
    requires k < |rs| && IsPublished(rs[k])
    requires forall m :: 0 <= m < k ==> !IsPublished(rs[m])
    ensures Published(rs) == [rs[k].tagName] + Published(rs[k + 1..])
    decreases k
  {
    if k > 0 {
      PublishedFrom(rs[1..], k - 1);
      assert rs[1..][k..] == rs[k + 1..];
    }
  }

  /** A non-empty published list has a first published position. */
  lemma {:induction false} FirstPublished(rs: seq<ReleaseInfo>) returns (k: nat)
    requires |Published(rs)| > 0
    ensures k < |rs| && IsPublished(rs[k])
    ensures forall m :: 0 <= m < k ==> !IsPublished(rs[m])
    ensures Published(rs) == [rs[k].tagName] + Published(rs[k + 1..])
    decreases |rs|
  {
    if IsPublished(rs[0]) {
      k := 0;
    } else {
      var k' := FirstPublished(rs[1..]);
      k := k' + 1;
      assert rs[1..][k' + 1..] == rs[k + 1..];
    }
  }

  /** The tag of the release published before `release`, looked up in the
      first page of the listing. Fewer than two published releases set the
      fail-safe and yield `""`; a newest published release other than
      `release` is an ordering error. */
  function FindPreviousRelease<R>(ctx: Context, api: Api<R>, release: string): (r: Result<(Context, string), Error>)
    ensures var tags := Published(ListReleases(api));
      && (r.Err? <==> |tags| >= 2 && tags[0] != release)
      && (r.Err? ==> r.error == ReleaseOrder(tags[0], release))
      && (r.Ok? && |tags| < 2 ==> r.value == (MarkAllDirty(ctx, NoPreviousRelease), ""))
      && (r.Ok? && |tags| >= 2 ==> r.value == (ctx, tags[1]))
  {
    var tags := Published(ListReleases(api));
    if |tags| < 2 then
      Ok((MarkAllDirty(ctx, NoPreviousRelease), ""))
    else if tags[0] != release then
      Err(ReleaseOrder(tags[0], release))
    else
      Ok((ctx, tags[1]))
  }

  /** Whenever a previous release is found, it is the release published
      immediately before `release` in the listed page. */
  lemma FindPreviousReleaseSound<R>(ctx: Context, api: Api<R>, release: string)
    requires FindPreviousRelease(ctx, api, release).Ok?
    requires |Published(ListReleases(api))| >= 2
    ensures var page := ListReleases(api);
      exists i: nat, j: nat :: PreviousPublished(page, i, j)
        && page[i].tagName == release
        && page[j].tagName == FindPreviousRelease(ctx, api, release).value.1
  {
    var page := ListReleases(api);
    var i := FirstPublished(page);
    var rest := page[i + 1..];
    var k := FirstPublished(rest);
    var j := i + 1 + k;
    assert rest[k] == page[j];
    assert forall m :: i < m < j ==> page[m] == rest[m - i - 1];
    assert PreviousPublished(page, i, j);
  }

  /** Conversely, when the newest published release of the page is
      `release` and another published release follows it, that one is
      found and the fail-safe is left alone. */
  lemma FindPreviousReleaseComplete<R>(ctx: Context, api: Api<R>, release: string, i: nat, j: nat)
    requires PreviousPublished(ListReleases(api), i, j)
    requires ListReleases(api)[i].tagName == release
    ensures FindPreviousRelease(ctx, api, release) == Ok((ctx, ListReleases(api)[j].tagName))
  {
    var page := ListReleases(api);
    PublishedFrom(page, i);
    var rest := page[i + 1..];
    assert forall m :: 0 <= m < j - i - 1 ==> rest[m] == page[m + i + 1];
    PublishedFrom(rest, j - i - 1);
    assert rest[j - i - 1] == page[j];
  }

  /** Explicit inputs are used only when both base and head are given. */
  predicate HasExplicitRange(ctx: Context) {
    ctx.inputs.base != "" && ctx.inputs.head != ""
  }

  /** Sets the commit range: from the inputs when both are given, else
      from the event; a release event compares against the previous
      published release. */
  function FindCommitRange<R>(ctx: Context, event: Event, api: Api<R>): (r: Result<Context, Error>)
    ensures HasExplicitRange(ctx) ==>
      r == Ok(ctx.(base := ctx.inputs.base, head := ctx.inputs.head))
    ensures r.Ok? ==> Monotone(ctx, r.value) && r.value.inputs == ctx.inputs
    ensures r.Ok? && FlagConsistent(ctx) ==> FlagConsistent(r.value)
    ensures r.Ok? ==> r.value.compareCommitsUrl == ctx.compareCommitsUrl
    ensures r.Err? ==> !HasExplicitRange(ctx) && (event.Other? || event.Release?)
    ensures !HasExplicitRange(ctx) ==> match event
      case PullRequest(b, h) => r == Ok(ctx.(base := b, head := h))
      case Push(b, a) => r == Ok(ctx.(base := b, head := a))
      case WorkflowDispatch(b, h) => r == Ok(ctx.(base := b, head := h))
      case Release(tag) =>
        var f := FindPreviousRelease(ctx, api, tag);
        && (r.Err? <==> f.Err?)
        && (r.Err? ==> r.error == f.error)
        && (r.Ok? ==> r.value == f.value.0.(base := f.value.1, head := tag))
      case Other(name) => r == Err(UnsupportedEvent(name))
  {
    if HasExplicitRange(ctx) then
      Ok(ctx.(base := ctx.inputs.base, head := ctx.inputs.head))
    else match event
      case PullRequest(b, h) => Ok(ctx.(base := b, head := h))
      case Push(before, after) => Ok(ctx.(base := before, head := after))
      case Release(tag) =>
        var found :- FindPreviousRelease(ctx, api, tag);
        Ok(found.0.(base := found.1, head := tag))
      case WorkflowDispatch(b, h) => Ok(ctx.(base := b, head := h))
      case Other(name) => Err(UnsupportedEvent(name))
  }

  /** With an explicit range neither the event nor the release listing
      is consulted. */
  lemma ExplicitRangeIgnoresEvent<R>(ctx: Context, e1: Event, e2: Event, api1: Api<R>, api2: Api<R>)
    requires HasExplicitRange(ctx)
    ensures FindCommitRange(ctx, e1, api1) == FindCommitRange(ctx, e2, api2)
  {
  }

  /** A release event with fewer than two published releases in the page
      sets the fail-safe with its fixed reason, and compares `""` with the
      release tag. */
  lemma NoPreviousReleaseFailsSafe<R>(ctx: Context, api: Api<R>, tag: string)
    requires !HasExplicitRange(ctx)
    requires |Published(ListReleases(api))| < 2
    ensures var r := FindCommitRange(ctx, Release(tag), api);
      && r.Ok? && r.value.allDirty
      && r.value.allDirtyReason == Some(NoPreviousRelease)
      && r.value.base == "" && r.value.head == tag
  {
  }
}

=== FILE: Detection.dfy ===
/** The detection run: resolve the range, collect the changed files,
    match the rules, and split the bits into clean and dirty. */
module Detection {
  import opened Wrappers
  import opened ActionInputs
  import opened State
  import opened RuleSet
  import opened CommitRange
  import opened ChangedFiles
  import opened Matcher

  /** The final results of a run. */
  datatype Results = Results(
    allClean: bool,
    allDirty: bool,
    allDirtyReason: Option<string>,
    someDirty: bool,
    bits: map<string, BitResult>,
    cleanBits: seq<string>,
    dirtyBits: seq<string>,
    base: string,
    head: string,
    compareCommitsUrl: Option<string>)

  /** The summary flags follow from the two bit lists. */
  ghost predicate SummaryConsistent(res: Results) {
    && (res.allClean <==> res.dirtyBits == [])
    && (res.allDirty <==> res.cleanBits == [])
    && (res.someDirty <==> res.dirtyBits != [])
  }

  /** The fail-safe outcome: every bit dirty, in rule order, none with a
      matched-file list. */
  ghost predicate FailSafeOutcome(res: Results, rules: Rules) {
    && res.cleanBits == []
    && res.dirtyBits == BitNames(rules)
    && res.bits.Keys == BitSet(rules)
    && forall b :: b in res.bits ==> res.bits[b] == BitResult(true, None)
  }

  /** The normal outcome: each bit in the clean or the dirty list by its
      own dirty flag, both lists in rule order, every bit with its
      matched files. */
  ghost predicate NormalOutcome(res: Results, rules: Rules) {
    && res.bits.Keys == BitSet(rules)
    && multiset(res.cleanBits) + multiset(res.dirtyBits) == multiset(BitNames(rules))
    && IsSubsequence(res.cleanBits, BitNames(rules))
    && IsSubsequence(res.dirtyBits, BitNames(rules))
    && (forall b :: b in res.bits ==> res.bits[b].matchedFiles.Some?)
    && (forall b :: b in res.dirtyBits ==> b in res.bits && res.bits[b].dirty)
    && (forall b :: b in res.cleanBits ==> b in res.bits && !res.bits[b].dirty)
  }

  /** Bit names in order, split by their dirty flag into (clean, dirty). */
  function Partition(ms: seq<BitMatch>): (p: (seq<string>, seq<string>))
    ensures |p.0| + |p.1| == |ms|
  {
    if ms == [] then ([], [])
    else
      var rest := Partition(ms[1..]);
      if ms[0].result.dirty then (rest.0, [ms[0].bit] + rest.1)
      else ([ms[0].bit] + rest.0, rest.1)
  }

  lemma BitNamesOfCons(ms: seq<BitMatch>)
    requires ms != []
    ensures BitNamesOf(ms) == [ms[0].bit] + BitNamesOf(ms[1..])
  {
    assert forall i :: 1 <= i < |ms| ==> ms[i] == ms[1..][i - 1];
  }

  /** Together the two lists hold every bit name exactly as often as the outcomes do. */
  lemma {:induction false} PartitionPermutes(ms: seq<BitMatch>)
    ensures multiset(Partition(ms).0) + multiset(Partition(ms).1) == multiset(BitNamesOf(ms))
  {
    if ms != [] {
      PartitionPermutes(ms[1..]);
      BitNamesOfCons(ms);
    }
  }

  /** Each list keeps the order of the outcomes. */
  lemma {:induction false} PartitionKeepsOrder(ms: seq<BitMatch>)
    ensures IsSubsequence(Partition(ms).0, BitNamesOf(ms))
    ensures IsSubsequence(Partition(ms).1, BitNamesOf(ms))
  {
    if ms != [] {
      var rest := Partition(ms[1..]);
      PartitionKeepsOrder(ms[1..]);
      BitNamesOfCons(ms);
      SubsequenceCons(rest.0, ms[0].bit, BitNamesOf(ms[1..]));
      SubsequenceCons(rest.1, ms[0].bit, BitNamesOf(ms[1..]));
    }
  }

  /** A name is in the dirty list only for a dirty outcome and in the
      clean list only for a clean one, and every outcome lands in the list
      its flag says. */
  lemma {:induction false} PartitionByFlag(ms: seq<BitMatch>)
    ensures forall i :: 0 <= i < |ms| && ms[i].result.dirty ==> ms[i].bit in Partition(ms).1
    ensures forall i :: 0 <= i < |ms| && !ms[i].result.dirty ==> ms[i].bit in Partition(ms).0
    ensures forall b :: b in Partition(ms).1 ==> exists i :: 0 <= i < |ms| && ms[i].bit == b && ms[i].result.dirty
    ensures forall b :: b in Partition(ms).0 ==> exists i :: 0 <= i < |ms| && ms[i].bit == b && !ms[i].result.dirty
  {
    if ms != [] {
      PartitionByFlag(ms[1..]);
      assert forall i :: 1 <= i < |ms| ==> ms[i] == ms[1..][i - 1];
      forall b | b in Partition(ms).1
        ensures exists i :: 0 <= i < |ms| && ms[i].bit == b && ms[i].result.dirty
      {
        if b in Partition(ms[1..]).1 {
          var i :| 0 <= i < |ms[1..]| && ms[1..][i].bit == b && ms[1..][i].result.dirty;
          assert ms[i + 1] == ms[1..][i];
        }
      }
      forall b | b in Partition(ms).0
        ensures exists i :: 0 <= i < |ms| && ms[i].bit == b && !ms[i].result.dirty
      {
        if b in Partition(ms[1..]).0 {
          var i :| 0 <= i < |ms[1..]| && ms[1..][i].bit == b && !ms[1..][i].result.dirty;
          assert ms[i + 1] == ms[1..][i];
        }
      }
    }
  }

  /** The outcomes as a mapping from bit name, a later entry for the same
      name replacing an earlier one. */
  function BitsMap(ms: seq<BitMatch>): (m: map<string, BitResult>)
    ensures m.Keys == (set i | 0 <= i < |ms| :: ms[i].bit)
  {
    if ms == [] then map[]
    else
      var init := ms[..|ms| - 1];
      assert forall i :: 0 <= i < |init| ==> init[i] == ms[i];
      BitsMap(init)[ms[|ms| - 1].bit := ms[|ms| - 1].result]
  }

  /** With distinct names, each bit maps to its own outcome. */
  lemma {:induction false} BitsMapLookup(ms: seq<BitMatch>, i: nat)
    requires Distinct(BitNamesOf(ms))
    requires i < |ms|
    ensures ms[i].bit in BitsMap(ms) && BitsMap(ms)[ms[i].bit] == ms[i].result
    decreases |ms|
  {
    var init := ms[..|ms| - 1];
    if i < |ms| - 1 {
      assert BitNamesOf(ms)[i] != BitNamesOf(ms)[|ms| - 1];
      assert forall k :: 0 <= k < |init| ==> BitNamesOf(init)[k] == BitNamesOf(ms)[k];
      BitsMapLookup(init, i);
    }
  }

  /** Assembles the results from the final context and the outcomes. In
      the fail-safe every rule's bit is dirty with no matched files. */
  function Assemble(ctx: Context, rules: Rules, ms: seq<BitMatch>): (res: Results)
    ensures SummaryConsistent(res)
    ensures res.allDirtyReason == ctx.allDirtyReason
    ensures res.base == ctx.base && res.head == ctx.head && res.compareCommitsUrl == ctx.compareCommitsUrl
    ensures ctx.allDirty ==> res.dirtyBits == BitNames(rules) && res.cleanBits == []
    ensures !ctx.allDirty ==> res.bits == BitsMap(ms) && (res.cleanBits, res.dirtyBits) == Partition(ms)
  {
    var names := BitNames(rules);
    var split: (seq<string>, seq<string>) :=
      if ctx.allDirty then ([], names) else Partition(ms);
    var bits0 := BitsMap(ms);
    var bits :=
      if ctx.allDirty then bits0 + map b | b in names :: BitResult(true, None) else bits0;
    Results(
      allClean := |split.1| == 0,
      allDirty := |split.0| == 0,
      allDirtyReason := ctx.allDirtyReason,
      someDirty := |split.1| > 0,
      bits := bits,
      cleanBits := split.0,
      dirtyBits := split.1,
      base := ctx.base,
      head := ctx.head,
      compareCommitsUrl := ctx.compareCommitsUrl)
  }

  /** In the fail-safe, matching produced nothing, so the results mark
      every rule's bit dirty and nothing else. */
  lemma AssembleFailSafe(ctx: Context, rules: Rules)
    requires ctx.allDirty
    ensures FailSafeOutcome(Assemble(ctx, rules, []), rules)
  {
    var res := Assemble(ctx, rules, []);
    assert res.bits.Keys == BitSet(rules) by {
      forall b ensures b in res.bits <==> b in BitSet(rules) {
        assert b in BitSet(rules) <==> b in BitNames(rules);
      }
    }
  }

  /** Outside the fail-safe, with one outcome per rule, every bit lands in
      the list its dirty flag says, with its matched files. */
  lemma AssembleNormal(ctx: Context, rules: Rules, ms: seq<BitMatch>)
    requires !ctx.allDirty
    requires DistinctBits(rules)
    requires BitNamesOf(ms) == BitNames(rules)
    requires forall i :: 0 <= i < |ms| ==> ms[i].result.matchedFiles.Some?
    ensures NormalOutcome(Assemble(ctx, rules, ms), rules)
  {
    var res := Assemble(ctx, rules, ms);
    var names := BitNames(rules);
    assert res.bits == BitsMap(ms);
    assert (res.cleanBits, res.dirtyBits) == Partition(ms);
    assert res.bits.Keys == BitSet(rules) by {
      assert forall i :: 0 <= i < |ms| ==> ms[i].bit == names[i];
    }
    assert multiset(res.cleanBits) + multiset(res.dirtyBits) == multiset(names) by {
      PartitionPermutes(ms);
    }
    assert IsSubsequence(res.cleanBits, names) && IsSubsequence(res.dirtyBits, names) by {
      PartitionKeepsOrder(ms);
    }
    forall b | b in res.bits ensures res.bits[b].matchedFiles.Some? {
      var i :| 0 <= i < |ms| && ms[i].bit == b;
      BitsMapLookup(ms, i);
    }
    forall b | b in res.dirtyBits ensures b in res.bits && res.bits[b].dirty {
      PartitionByFlag(ms);
      var i :| 0 <= i < |ms| && ms[i].bit == b && ms[i].result.dirty;
      BitsMapLookup(ms, i);
    }
    forall b | b in res.cleanBits ensures b in res.bits && !res.bits[b].dirty {
      PartitionByFlag(ms);
      var i :| 0 <= i < |ms| && ms[i].bit == b && !ms[i].result.dirty;
      BitsMapLookup(ms, i);
    }
  }

  /** One detection run over the given rules. */
  function Detect(ctx: Context, glob: Glob, rules: Rules, event: Event, api: Hub): (r: Result<Results, Error>)
    requires DistinctBits(rules)
    ensures r.Err? <==> FindCommitRange(ctx, event, api).Err?
    ensures r.Err? ==> r.error == FindCommitRange(ctx, event, api).error
    ensures r.Ok? ==> SummaryConsistent(r.value)
    ensures r.Ok? ==> FailSafeOutcome(r.value, rules) || NormalOutcome(r.value, rules)
    ensures r.Ok? ==> forall b :: b in r.value.cleanBits ==> b !in r.value.dirtyBits
    ensures r.Ok? ==> forall b :: b in r.value.cleanBits || b in r.value.dirtyBits <==> b in BitSet(rules)
    ensures r.Ok? ==>
      var c := CompareCommits(FindCommitRange(ctx, event, api).value, api).0;
      && r.value.base == c.base && r.value.head == c.head
      && r.value.compareCommitsUrl == c.compareCommitsUrl
      && r.value.allDirtyReason == c.allDirtyReason
    ensures r.Ok? && FlagConsistent(ctx) ==>
      && (r.value.allDirtyReason.Some? ==> FailSafeOutcome(r.value, rules))
      && (r.value.allDirtyReason.None? ==> NormalOutcome(r.value, rules))
  {
    var ctx1 :- FindCommitRange(ctx, event, api);
    var collected := CompareCommits(ctx1, api);
    var ms := Match(collected.0, glob, rules, collected.1);
    assert forall i :: 0 <= i < |ms| ==> ms[i].result.matchedFiles.Some?;
    if collected.0.allDirty then
      AssembleFailSafe(collected.0, rules);
      Ok(Assemble(collected.0, rules, ms))
    else
      AssembleNormal(collected.0, rules, ms);
      var res := Assemble(collected.0, rules, ms);
      assert forall b :: b in res.cleanBits || b in res.dirtyBits ==> b in multiset(BitNames(rules));
      assert forall b :: b in BitNames(rules) ==> b in multiset(res.cleanBits) + multiset(res.dirtyBits);
      Ok(res)
  }

  /** The whole action after input validation: load the rules, then run
      the detection from a fresh context. */
  function DetectDirtyBits(inputs: Inputs, parsed: Rules, glob: Glob, event: Event, api: Hub): (r: Result<Results, Error>)
    requires DistinctBits(parsed)
    ensures LoadRules(parsed).Err? ==> r == Err(LoadRules(parsed).error)
    ensures LoadRules(parsed).Ok? ==> (r.Err? <==> FindCommitRange(InitialContext(inputs), event, api).Err?)
    ensures r.Ok? ==>
      var c := CompareCommits(FindCommitRange(InitialContext(inputs), event, api).value, api).0;
      && r.value.base == c.base && r.value.head == c.head
      && r.value.compareCommitsUrl == c.compareCommitsUrl
      && r.value.allDirtyReason == c.allDirtyReason
    ensures r.Ok? ==> forall i :: 0 <= i < |parsed| ==> parsed[i].bit !in Outputs.Reserved
    ensures r.Ok? ==> SummaryConsistent(r.value)
    ensures r.Ok? && r.value.allDirtyReason.Some? ==> FailSafeOutcome(r.value, parsed)
    ensures r.Ok? && r.value.allDirtyReason.None? ==> NormalOutcome(r.value, parsed)
  {
    var rules :- LoadRules(parsed);
    Detect(InitialContext(inputs), glob, rules, event, api)
  }

  /** Outside the fail-safe, each bit's entry is exactly what matching its
      own patterns against the collected file names gives. */
  lemma DetectMatchesEachRule(ctx: Context, glob: Glob, rules: Rules, event: Event, api: Hub, i: nat)
    requires DistinctBits(rules) && i < |rules|
    requires FindCommitRange(ctx, event, api).Ok?
    requires !CompareCommits(FindCommitRange(ctx, event, api).value, api).0.allDirty
    ensures var files := CompareCommits(FindCommitRange(ctx, event, api).value, api).1;
      && Detect(ctx, glob, rules, event, api).Ok?
      && rules[i].bit in Detect(ctx, glob, rules, event, api).value.bits
      && Detect(ctx, glob, rules, event, api).value.bits[rules[i].bit]
         == MatchBit(glob, FileNames(files), rules[i].patterns)
  {
    var collected := CompareCommits(FindCommitRange(ctx, event, api).value, api);
    var ms := Match(collected.0, glob, rules, collected.1);
    assert BitNamesOf(ms)[i] == rules[i].bit;
    BitsMapLookup(ms, i);
  }

  /** A comparison that lists fewer commits than the range holds puts the
      run in the fail-safe: every bit dirty, none with matched files. */
  lemma TruncationFailsSafe(ctx: Context, glob: Glob, rules: Rules, event: Event, api: Hub)
    requires DistinctBits(rules)
    requires FindCommitRange(ctx, event, api).Ok?
    requires var c := FindCommitRange(ctx, event, api).value;
      && !c.allDirty && c.base != NullCommit && c.head != NullCommit
      && api.compare(c.base, c.head).commits < api.compare(c.base, c.head).totalCommits
    ensures var c := FindCommitRange(ctx, event, api).value;
      var resp := api.compare(c.base, c.head);
      var r := Detect(ctx, glob, rules, event, api);
      && r.Ok? && r.value.allDirty && FailSafeOutcome(r.value, rules)
      && r.value.allDirtyReason == Some(TruncatedReason(c.base, c.head, resp.totalCommits, resp.commits))
  {
  }

  /** A null base or head commit puts the run in the fail-safe without
      asking for a comparison. */
  lemma NullCommitFailsSafe(ctx: Context, glob: Glob, rules: Rules, event: Event, api: Hub)
    requires DistinctBits(rules)
    requires FindCommitRange(ctx, event, api).Ok?
    requires var c := FindCommitRange(ctx, event, api).value;
      !c.allDirty && (c.base == NullCommit || c.head == NullCommit)
    ensures var r := Detect(ctx, glob, rules, event, api);
      && r.Ok? && r.value.allDirty && FailSafeOutcome(r.value, rules)
      && r.value.allDirtyReason == Some(NullCommitReason)
      && r.value.compareCommitsUrl == ctx.compareCommitsUrl
  {
  }

  /** The context with the `rewrite-null-commit` flag replaced. */
  function WithRewriteFlag(ctx: Context, flag: bool): (c: Context)
    ensures c.inputs.rewriteNullCommit == flag
  {
    ctx.(inputs := ctx.inputs.(rewriteNullCommit := flag))
  }

  /** Range resolution carries the flag along without looking at it. */
  lemma FindCommitRangeIgnoresFlag(ctx: Context, flag: bool, event: Event, api: Hub)
    ensures var r := FindCommitRange(ctx, event, api);
      var r' := FindCommitRange(WithRewriteFlag(ctx, flag), event, api);
      && (r.Err? ==> r' == r)
      && (r.Ok? ==> r' == Ok(WithRewriteFlag(r.value, flag)))
  {
    if !HasExplicitRange(ctx) && event.Release? {
      var f := FindPreviousRelease(ctx, api, event.tagName);
      var f' := FindPreviousRelease(WithRewriteFlag(ctx, flag), api, event.tagName);
      assert f.Err? ==> f' == Err(f.error);
      assert f.Ok? ==> f' == Ok((WithRewriteFlag(f.value.0, flag), f.value.1));
    }
  }

  /** So does file collection. */
  lemma CompareCommitsIgnoresFlag(ctx: Context, flag: bool, api: Hub)
    ensures CompareCommits(WithRewriteFlag(ctx, flag), api)
      == (WithRewriteFlag(CompareCommits(ctx, api).0, flag), CompareCommits(ctx, api).1)
  {
  }

  /** The `rewrite-null-commit` input is read but never consulted: the
      results do not depend on it. */
  lemma RewriteNullCommitIgnored(ctx: Context, flag: bool, glob: Glob, rules: Rules, event: Event, api: Hub)
    requires DistinctBits(rules)
    ensures Detect(WithRewriteFlag(ctx, flag), glob, rules, event, api) == Detect(ctx, glob, rules, event, api)
  {
    FindCommitRangeIgnoresFlag(ctx, flag, event, api);
    var r := FindCommitRange(ctx, event, api);
    if r.Ok? {
      CompareCommitsIgnoresFlag(r.value, flag, api);
      var c := CompareCommits(r.value, api);
      var c' := CompareCommits(WithRewriteFlag(r.value, flag), api);
      assert Match(c'.0, glob, rules, c'.1) == Match(c.0, glob, rules, c.1);
      var ms := Match(c.0, glob, rules, c.1);
      assert Assemble(c'.0, rules, ms) == Assemble(c.0, rules, ms);
    }
  }

  /** Validated inputs carrying both base and head make the run compare
      exactly those two commits, whatever the event. */
  lemma ExplicitInputsShortCircuit(raw: RawInputs, event: Event, api: Hub)
    requires GetInputs(raw).Ok?
    requires GetInput(raw, "base") != ""
    ensures var r := FindCommitRange(InitialContext(GetInputs(raw).value), event, api);
      && r.Ok? && !r.value.allDirty
      && r.value.base == raw["base"] && r.value.head == raw["head"]
  {
  }
}

=== FILE: Matcher.dfy ===
/** Pattern matching of changed files against each bit's ordered rules.
    Glob evaluation belongs to an external engine, given here as the
    predicate `glob(file, pattern)`; it sees the whole pattern, leading
    `!` included, so the negation of an exclusion is the engine's. */
module Matcher {
  import opened Wrappers
  import opened State
  import opened RuleSet
  import opened ChangedFiles

  /** The glob engine, with base-name matching switched on. */
  type Glob = (string, string) -> bool

  /** The outcome for one bit. */
  datatype BitResult = BitResult(dirty: bool, matchedFiles: Option<seq<string>>)

  /** A bit's outcome under its name, in rule order. */
  datatype BitMatch = BitMatch(bit: string, result: BitResult)

  /** A pattern starting with `!` narrows what was matched so far. */
  predicate IsExclusion(p: string) {
    |p| > 0 && p[0] == '!'
  }

  /** `a` is `b` with some elements left out, order kept. */
  predicate IsSubsequence(a: seq<string>, b: seq<string>)
    decreases |b|
  {
    if a == [] then true
    else if b == [] then false
    else if a[0] == b[0] then IsSubsequence(a[1..], b[1..])
    else IsSubsequence(a, b[1..])
  }

  /** Putting an element in front of `b` keeps every subsequence of `b`. */
  lemma {:induction false} SubsequenceCons(a: seq<string>, x: string, b: seq<string>)
    requires IsSubsequence(a, b)
    ensures IsSubsequence(a, [x] + b)
    decreases |b|, 1
  {
    if a != [] && a[0] == x {
      SubsequenceTail(a, b);
      assert ([x] + b)[1..] == b;
    } else if a != [] {
      assert ([x] + b)[1..] == b;
    }
  }

  /** Dropping the first element keeps a subsequence a subsequence. */
  lemma {:induction false} SubsequenceTail(a: seq<string>, b: seq<string>)
    requires a != [] && IsSubsequence(a, b)
    ensures IsSubsequence(a[1..], b)
    decreases |b|, 0
  {
    if a[0] == b[0] {
      if a[1..] != [] {
        SubsequenceTail(a[1..], b[1..]);
        SubsequenceCons(a[1..][1..], b[0], b[1..]);
        assert [b[0]] + b[1..] == b;
      }
    } else {
      SubsequenceTail(a, b[1..]);
      SubsequenceCons(a[1..], b[0], b[1..]);
      assert [b[0]] + b[1..] == b;
    }
  }

  /** The engine's list matching: the names that match `p`, in order,
      repeats kept. */
  function Filter(glob: Glob, names: seq<string>, p: string): (r: seq<string>)
    ensures |r| <= |names|
  {
    if names == [] then []
    else if glob(names[0], p) then [names[0]] + Filter(glob, names[1..], p)
    else Filter(glob, names[1..], p)
  }

  /** List matching keeps exactly the names the engine accepts, in their
      original order. */
  lemma {:induction false} FilterSpec(glob: Glob, names: seq<string>, p: string)
    ensures IsSubsequence(Filter(glob, names, p), names)
    ensures forall f :: f in Filter(glob, names, p) <==> f in names && glob(f, p)
    ensures forall f :: multiset(Filter(glob, names, p))[f] == (if glob(f, p) then multiset(names)[f] else 0)
  {
    if names != [] {
      FilterSpec(glob, names[1..], p);
      assert names == [names[0]] + names[1..];
      if glob(names[0], p) {
        assert forall f :: f in names <==> f == names[0] || f in names[1..];
      } else {
        SubsequenceCons(Filter(glob, names[1..], p), names[0], names[1..]);
        assert [names[0]] + names[1..] == names;
      }
    }
  }

  /** List matching distributes over concatenation. */
  lemma {:induction false} FilterConcat(glob: Glob, a: seq<string>, b: seq<string>, p: string)
    ensures Filter(glob, a + b, p) == Filter(glob, a, p) + Filter(glob, b, p)
  {
    if a != [] {
      FilterConcat(glob, a[1..], b, p);
      assert (a + b)[1..] == a[1..] + b;
    } else {
      assert a + b == b;
    }
  }

  /** One pattern applied to the list `acc` matched so far: an exclusion
      only narrows it, an inclusion only extends it. */
  function ApplyPattern(glob: Glob, files: seq<string>, acc: seq<string>, p: string): (r: seq<string>)
    ensures IsExclusion(p) ==> |r| <= |acc|
    ensures !IsExclusion(p) ==> |acc| <= |r| <= |acc| + |files| && r[..|acc|] == acc
  {
    if IsExclusion(p) then Filter(glob, acc, p) else acc + Filter(glob, files, p)
  }

  /** An exclusion keeps the part of the list so far that the engine
      accepts, in order, and never adds a file; an inclusion keeps the
      list so far and appends, in order and without removing repeats, the
      names of the full file list that match it. */
  lemma ApplyPatternSpec(glob: Glob, files: seq<string>, acc: seq<string>, p: string)
    ensures var r := ApplyPattern(glob, files, acc, p);
      && (IsExclusion(p) ==> IsSubsequence(r, acc) && |r| <= |acc|)
      && (IsExclusion(p) ==> forall f :: f in r <==> f in acc && glob(f, p))
      && (!IsExclusion(p) ==> |acc| <= |r| && r[..|acc|] == acc)
      && (!IsExclusion(p) ==> IsSubsequence(r[|acc|..], files))
      && (!IsExclusion(p) ==> forall f :: f in r[|acc|..] <==> f in files && glob(f, p))
    ensures var r := ApplyPattern(glob, files, acc, p);
      && (IsExclusion(p) ==> forall f :: multiset(r)[f] == (if glob(f, p) then multiset(acc)[f] else 0))
      && (!IsExclusion(p) ==> forall f :: multiset(r[|acc|..])[f] == (if glob(f, p) then multiset(files)[f] else 0))
  {
    if IsExclusion(p) {
      FilterSpec(glob, acc, p);
    } else {
      var added := Filter(glob, files, p);
      FilterSpec(glob, files, p);
      assert (acc + added)[|acc|..] == added;
    }
  }

  /** The patterns applied left to right, starting from `acc`; nothing
      outside the starting list and the changed files is ever listed. */
  function MatchPatterns(glob: Glob, files: seq<string>, acc: seq<string>, ps: seq<string>): (r: seq<string>)
    ensures forall f :: f in r ==> f in acc || f in files
    decreases |ps|
  {
    if ps == [] then acc
    else
      ApplyPatternSpec(glob, files, acc, ps[0]);
      var next := ApplyPattern(glob, files, acc, ps[0]);
      assert forall f :: f in next ==> f in acc || f in files by {
        if !IsExclusion(ps[0]) {
          assert next == next[..|acc|] + next[|acc|..];
        }
      }
      MatchPatterns(glob, files, next, ps[1..])
  }

  /** `f` passes every exclusion among `ps[from..]`. */
  ghost predicate Survives(glob: Glob, f: string, ps: seq<string>, from: nat) {
    forall j :: from <= j < |ps| && IsExclusion(ps[j]) ==> glob(f, ps[j])
  }

  /** The inclusion `ps[i]` brings in `f` from the file list. */
  ghost predicate AddedBy(glob: Glob, files: seq<string>, f: string, ps: seq<string>, i: nat) {
    i < |ps| && !IsExclusion(ps[i]) && f in files && glob(f, ps[i])
  }

  /** Some inclusion at position `from` or later brings in `f`, and `f`
      passes every exclusion after it. */
  ghost predicate AddedLater(glob: Glob, files: seq<string>, f: string, ps: seq<string>, from: nat) {
    exists i: nat :: from <= i && AddedBy(glob, files, f, ps, i) && Survives(glob, f, ps, i + 1)
  }

  /** The membership rule `MatchMembership` states. */
  ghost predicate Kept(glob: Glob, files: seq<string>, acc: seq<string>, ps: seq<string>, f: string) {
    (f in acc && Survives(glob, f, ps, 0)) || AddedLater(glob, files, f, ps, 0)
  }

  /** Dropping the first pattern shifts every position down by one. */
  lemma SurvivesShift(glob: Glob, f: string, ps: seq<string>, n: nat)
    requires |ps| > 0
    ensures Survives(glob, f, ps[1..], n) <==> Survives(glob, f, ps, n + 1)
  {
    assert forall j :: n + 1 <= j < |ps| ==> ps[j] == ps[1..][j - 1];
  }

  lemma AddedLaterShift(glob: Glob, files: seq<string>, f: string, ps: seq<string>)
    requires |ps| > 0
    ensures AddedLater(glob, files, f, ps[1..], 0) <==> AddedLater(glob, files, f, ps, 1)
  {
    var rest := ps[1..];
    if AddedLater(glob, files, f, rest, 0) {
      var i: nat :| AddedBy(glob, files, f, rest, i) && Survives(glob, f, rest, i + 1);
      SurvivesShift(glob, f, ps, i + 1);
      assert AddedBy(glob, files, f, ps, i + 1);
    }
    if AddedLater(glob, files, f, ps, 1) {
      var i: nat :| 1 <= i && AddedBy(glob, files, f, ps, i) && Survives(glob, f, ps, i + 1);
      SurvivesShift(glob, f, ps, i);
      assert AddedBy(glob, files, f, rest, i - 1);
    }
  }

  /** Which names end up matched: those already matched that pass every
      exclusion, and those some inclusion brings in from the file list
      that pass every later exclusion. */
  lemma {:induction false} MatchMembership(glob: Glob, files: seq<string>, acc: seq<string>, ps: seq<string>, f: string)
    ensures f in MatchPatterns(glob, files, acc, ps) <==> Kept(glob, files, acc, ps, f)
    decreases |ps|
  {
    if ps != [] {
      var p := ps[0];
      var acc' := ApplyPattern(glob, files, acc, p);
      ApplyPatternSpec(glob, files, acc, p);
      MatchMembership(glob, files, acc', ps[1..], f);
      SurvivesShift(glob, f, ps, 0);
      AddedLaterShift(glob, files, f, ps);
      assert AddedLater(glob, files, f, ps, 0) <==>
        (AddedBy(glob, files, f, ps, 0) && Survives(glob, f, ps, 1)) || AddedLater(glob, files, f, ps, 1);
      assert f in acc' <==>
        if IsExclusion(p) then f in acc && glob(f, p)
        else f in acc || (f in files && glob(f, p)) by {
        if !IsExclusion(p) {
          assert acc' == acc + acc'[|acc|..];
        }
      }
    }
  }

  /** The outcome for one bit: its patterns applied in order to an empty
      list; the bit is dirty when anything remains. */
  function MatchBit(glob: Glob, files: seq<string>, patterns: seq<string>): (b: BitResult)
    ensures b.matchedFiles.Some?
    ensures b.dirty <==> b.matchedFiles.value != []
  {
    var matched := MatchPatterns(glob, files, [], patterns);
    BitResult(|matched| > 0, Some(matched))
  }

  /** A bit is dirty exactly when some inclusion pattern matches a changed
      file that no later exclusion pattern drops; every matched name is a
      changed file. */
  lemma DirtyIff(glob: Glob, files: seq<string>, patterns: seq<string>)
    ensures MatchBit(glob, files, patterns).dirty <==>
      exists f: string :: AddedLater(glob, files, f, patterns, 0)
    ensures forall f :: f in MatchBit(glob, files, patterns).matchedFiles.value ==> f in files
  {
    var matched := MatchPatterns(glob, files, [], patterns);
    forall f | f in matched ensures f in files {
      MatchMembership(glob, files, [], patterns, f);
    }
    if matched != [] {
      MatchMembership(glob, files, [], patterns, matched[0]);
    }
    if exists f: string :: AddedLater(glob, files, f, patterns, 0) {
      var f: string :| AddedLater(glob, files, f, patterns, 0);
      MatchMembership(glob, files, [], patterns, f);
    }
  }

  /** The names of the changed files, in order. */
  function FileNames(changed: seq<ChangedFile>): (names: seq<string>)
    ensures |names| == |changed|
    ensures forall i :: 0 <= i < |changed| ==> names[i] == changed[i].filename
  {
    seq(|changed|, i requires 0 <= i < |changed| => changed[i].filename)
  }

  /** Every rule matched against the changed files, in rule order. */
  function MatchRules(glob: Glob, rules: Rules, names: seq<string>): (ms: seq<BitMatch>)
    ensures |ms| == |rules|
    ensures forall i :: 0 <= i < |rules| ==>
      ms[i].bit == rules[i].bit && ms[i].result == MatchBit(glob, names, rules[i].patterns)
  {
    seq(|rules|, i requires 0 <= i < |rules| => BitMatch(rules[i].bit, MatchBit(glob, names, rules[i].patterns)))
  }

  /** Matching does nothing once the fail-safe is set; otherwise every bit
      gets its outcome, under its name and in rule order. */
  function Match(ctx: Context, glob: Glob, rules: Rules, changed: seq<ChangedFile>): (ms: seq<BitMatch>)
    ensures ctx.allDirty ==> ms == []
    ensures !ctx.allDirty ==> BitNamesOf(ms) == BitNames(rules)
    ensures !ctx.allDirty ==> forall i :: 0 <= i < |ms| ==>
      ms[i].result == MatchBit(glob, FileNames(changed), rules[i].patterns)
  {
    if ctx.allDirty then [] else MatchRules(glob, rules, FileNames(changed))
  }

  /** The bit names of a list of outcomes, in order. */
  function BitNamesOf(ms: seq<BitMatch>): (names: seq<string>)
    ensures |names| == |ms|
    ensures forall i :: 0 <= i < |ms| ==> names[i] == ms[i].bit
  {
    seq(|ms|, i requires 0 <= i < |ms| => ms[i].bit)
  }

  /** When the engine reads `!q` as the negation of `q`, an exclusion
      drops from the list so far exactly the names that match `q`. */
  lemma ExclusionDropsMatches(glob: Glob, files: seq<string>, acc: seq<string>, q: string)
    requires forall f :: glob(f, "!" + q) == !glob(f, q)
    ensures forall f :: f in ApplyPattern(glob, files, acc, "!" + q) <==> f in acc && !glob(f, q)
  {
    assert IsExclusion("!" + q);
    ApplyPatternSpec(glob, files, acc, "!" + q);
  }

  /** Inclusions are not merged: two inclusion patterns list their matches
      one after the other, so a file both match is listed twice. */
  lemma NoDeduplication(glob: Glob, files: seq<string>, p: string, q: string)
    requires !IsExclusion(p) && !IsExclusion(q)
    ensures MatchPatterns(glob, files, [], [p, q]) == Filter(glob, files, p) + Filter(glob, files, q)
  {
    var once := ApplyPattern(glob, files, [], p);
    assert once == Filter(glob, files, p);
    assert [p, q][1..] == [q];
    assert MatchPatterns(glob, files, once, [q]) == ApplyPattern(glob, files, once, q);
  }

  /** A changed file that two inclusion patterns in a row both match is
      listed at least twice. */
  lemma MatchedTwiceListedTwice(glob: Glob, files: seq<string>, p: string, q: string, f: string)
    requires !IsExclusion(p) && !IsExclusion(q)
    requires f in files && glob(f, p) && glob(f, q)
    ensures multiset(MatchPatterns(glob, files, [], [p, q]))[f] >= 2
  {
    NoDeduplication(glob, files, p, q);
    FilterSpec(glob, files, p);
    FilterSpec(glob, files, q);
  }
}

=== FILE: Outputs.dfy ===
/** The action's own output names. A rule may not reuse one of them as a
    bit name, because each bit is published as an output of the same name. */
module Outputs {

  const AllClean: string := "all-clean"
  const AllDirty: string := "all-dirty"
  const SomeDirty: string := "some-dirty"
  const CleanBits: string := "clean-bits"
  const DirtyBits: string := "dirty-bits"
  const JsonResults: string := "json-results"

  /** The values of the output-name table, in declaration order. */
  const OutputNames: seq<string> := [AllClean, AllDirty, SomeDirty, CleanBits, DirtyBits, JsonResults]

  /** The names no bit may take. */
  const Reserved: set<string> := set n | n in OutputNames
}

=== FILE: Positions.dfy ===
/** Sets of positions in a list, used to count the entries a filter keeps. */
module Positions {
  /** Every position moved one place to the right, as when a list loses its head. */
  function Shift(s: set<nat>): set<nat> {
    set i | i in s :: i + 1
  }

  /** Shifting neither merges nor loses positions. */
  lemma {:induction false} ShiftCard(s: set<nat>)
    ensures |Shift(s)| == |s|
    decreases |s|
  {
    if s != {} {
      var x :| x in s;
      var rest := s - {x};
      ShiftCard(rest);
      forall j | j in Shift(s) ensures j in Shift(rest) + {x + 1} {
        var i :| i in s && j == i + 1;
        if i != x {
          assert i in rest;
        }
      }
      forall j | j in Shift(rest) + {x + 1} ensures j in Shift(s) {
        if j != x + 1 {
          var i :| i in rest && j == i + 1;
        }
      }
      assert Shift(s) == Shift(rest) + {x + 1};
      assert x + 1 !in Shift(rest);
    }
  }

  /** The positions of a list with a head: the head's, if it counts, and
      the shifted positions of the tail. */
  lemma HeadAndShift(s: set<nat>, head: bool, tail: set<nat>)
    requires forall i: nat :: i in s <==> (i == 0 && head) || (i > 0 && i - 1 in tail)
    ensures |s| == (if head then 1 else 0) + |tail|
  {
    ShiftCard(tail);
    var rest := s - {0};
    forall j | j in rest ensures j in Shift(tail) {
      assert j - 1 in tail;
    }
    forall j | j in Shift(tail) ensures j in rest {
      var i :| i in tail && j == i + 1;
    }
    assert rest == Shift(tail);
    if head {
      assert s == {0} + rest;
    } else {
      assert s == rest;
    }
  }
}

=== FILE: RuleSet.dfy ===
/** The rule set: each bit name with its ordered list of patterns. */
module RuleSet {
  import opened Wrappers
  import opened Outputs
  import opened State

  datatype Rule = Rule(bit: string, patterns: seq<string>)

  /** Rules in the order the parsed mapping enumerates its keys. */
  type Rules = seq<Rule>

  /** The bit names, in rule order. */
  function BitNames(rules: Rules): (names: seq<string>)
    ensures |names| == |rules|
    ensures forall i :: 0 <= i < |rules| ==> names[i] == rules[i].bit
  {
    seq(|rules|, i requires 0 <= i < |rules| => rules[i].bit)
  }

  /** The bit names as a set. */
  function BitSet(rules: Rules): (s: set<string>)
    ensures forall b :: b in s <==> b in BitNames(rules)
  {
    set i | 0 <= i < |rules| :: rules[i].bit
  }

  /** No name occurs twice. */
  predicate Distinct(names: seq<string>) {
    forall i, j :: 0 <= i < j < |names| ==> names[i] != names[j]
  }

  /** Keys of a mapping are distinct, so a parsed rule set never repeats a bit. */
  predicate DistinctBits(rules: Rules) {
    Distinct(BitNames(rules))
  }

  /** The position of the first rule whose bit name is reserved, if any. */
  function FirstReserved(rules: Rules): (r: Option<nat>)
    ensures r.Some? ==> r.value < |rules| && rules[r.value].bit in Reserved
    ensures r.Some? ==> forall j :: 0 <= j < r.value ==> rules[j].bit !in Reserved
    ensures r.None? <==> forall j :: 0 <= j < |rules| ==> rules[j].bit !in Reserved
  {
    if rules == [] then None
    else if rules[0].bit in Reserved then Some(0)
    else match FirstReserved(rules[1..])
      case None => None
      case Some(k) => Some(k + 1)
  }

  /** Validates parsed rules: the first bit, in rule order, whose name is
      an output name fails the load; otherwise the rules are returned
      exactly as parsed. */
  function LoadRules(parsed: Rules): (r: Result<Rules, Error>)
    ensures r.Ok? <==> forall i :: 0 <= i < |parsed| ==> parsed[i].bit !in Reserved
    ensures r.Ok? ==> r.value == parsed
    ensures r.Err? ==> r.error.ReservedWord? && r.error.bit in Reserved
    ensures r.Err? ==> exists i :: 0 <= i < |parsed| && parsed[i].bit == r.error.bit
                                 && forall j :: 0 <= j < i ==> parsed[j].bit !in Reserved
  {
    match FirstReserved(parsed)
    case None => Ok(parsed)
    case Some(i) => Err(ReservedWord(parsed[i].bit))
  }

  /** A rule file naming a bit `some-dirty` is refused with that name. */
  lemma ReservedWordScenario(other: seq<string>)
    ensures LoadRules([Rule("backend", other), Rule("some-dirty", other)]) == Err(ReservedWord("some-dirty"))
  {
    assert "some-dirty" in Reserved by { assert OutputNames[2] == "some-dirty"; }
    var rules := [Rule("backend", other), Rule("some-dirty", other)];
    assert rules[0].bit !in Reserved;
    assert FirstReserved(rules[1..]) == Some(0);
  }
}

=== FILE: Scenarios.dfy ===
/** The repository's own test cases, restated over the model. The glob
    engine's answers for the matching test are given as a table. */
module Scenarios {
  import opened Wrappers
  import opened ActionInputs
  import opened State
  import opened RuleSet
  import opened CommitRange
  import opened ChangedFiles
  import opened Matcher
  import opened Detection

  /** The engine's answers for the patterns and files of the matching
      test, listed file by file, with base-name matching on (a pattern
      without `/` is matched against the last path segment). */
  function TestGlob(f: string, p: string): bool {
    if p == "backend/**/*.go" then f in {"backend/main.go", "backend/foo.go", "backend/bar.go"}
    else if p == "frontend/**" then
      f in {"frontend/src/app/main.ts", "frontend/src/app/app.module.ts",
            "frontend/README.md", "frontend/deploy.sh", "frontend/version.sh"}
    else if p == "app.yaml" then f in {"app.yaml", "backend/app.yaml"}
    else if p == "!*/app.yaml" then f != "backend/app.yaml"
    else if p == "!README.md" then f !in {"backend/README.md", "frontend/README.md"}
    else if p == "!*.sh" then f !in {"backend/version.sh", "frontend/deploy.sh", "frontend/version.sh"}
    else if p == "frontend/version.sh" then f == "frontend/version.sh"
    else false
  }

  // The test's file list in three chunks of four: the split carries no
  // meaning and only keeps each list-matching proof small.
  const FirstFiles: seq<string> := ["app.yaml", "backend/README.md", "backend/app.yaml", "backend/main.go"]
  const MiddleFiles: seq<string> := ["backend/foo.go", "backend/bar.go", "backend/version.sh", "frontend/src/app/main.ts"]
  const LastFiles: seq<string> := ["frontend/src/app/app.module.ts", "frontend/README.md", "frontend/deploy.sh", "frontend/version.sh"]

  /** The changed files of the matching test, in its order. */
  const TestFiles: seq<string> := FirstFiles + MiddleFiles + LastFiles

  const FrontendPatterns: seq<string> :=
    ["frontend/**", "app.yaml", "!*/app.yaml", "!README.md", "!*.sh", "frontend/version.sh"]

  /** The engine's answers on the test files, four files at a time. */
  lemma FirstFilesMatches()
    ensures Filter(TestGlob, FirstFiles, "backend/**/*.go") == ["backend/main.go"]
    ensures Filter(TestGlob, FirstFiles, "frontend/**") == []
    ensures Filter(TestGlob, FirstFiles, "app.yaml") == ["app.yaml", "backend/app.yaml"]
    ensures Filter(TestGlob, FirstFiles, "frontend/version.sh") == []
    ensures Filter(TestGlob, FirstFiles, "worker/**") == []
  {
  }

  lemma MiddleFilesMatches()
    ensures Filter(TestGlob, MiddleFiles, "backend/**/*.go") == ["backend/foo.go", "backend/bar.go"]
    ensures Filter(TestGlob, MiddleFiles, "frontend/**") == ["frontend/src/app/main.ts"]
    ensures Filter(TestGlob, MiddleFiles, "app.yaml") == []
    ensures Filter(TestGlob, MiddleFiles, "frontend/version.sh") == []
    ensures Filter(TestGlob, MiddleFiles, "worker/**") == []
  {
  }

  lemma LastFilesMatches()
    ensures Filter(TestGlob, LastFiles, "backend/**/*.go") == []
    ensures Filter(TestGlob, LastFiles, "frontend/**") == ["frontend/src/app/app.module.ts", "frontend/README.md", "frontend/deploy.sh", "frontend/version.sh"]
    ensures Filter(TestGlob, LastFiles, "app.yaml") == []
    ensures Filter(TestGlob, LastFiles, "frontend/version.sh") == ["frontend/version.sh"]
    ensures Filter(TestGlob, LastFiles, "worker/**") == []
  {
  }

  /** Matching the whole test list, assembled from the three parts. */
  lemma TestFilesMatches(p: string)
    ensures Filter(TestGlob, TestFiles, p)
      == Filter(TestGlob, FirstFiles, p) + Filter(TestGlob, MiddleFiles, p) + Filter(TestGlob, LastFiles, p)
  {
    FilterConcat(TestGlob, FirstFiles + MiddleFiles, LastFiles, p);
    FilterConcat(TestGlob, FirstFiles, MiddleFiles, p);
  }

  /** The backend bit matches its three Go files. */
  lemma BackendScenario()
    ensures MatchBit(TestGlob, TestFiles, ["backend/**/*.go"])
      == BitResult(true, Some(["backend/main.go", "backend/foo.go", "backend/bar.go"]))
  {
    var p := "backend/**/*.go";
    var matched := ["backend/main.go", "backend/foo.go", "backend/bar.go"];
    assert Filter(TestGlob, TestFiles, p) == matched by {
      FirstFilesMatches(); MiddleFilesMatches(); LastFilesMatches();
      TestFilesMatches(p);
    }
    assert ApplyPattern(TestGlob, TestFiles, [], p) == matched;
    assert MatchPatterns(TestGlob, TestFiles, [], [p]) == matched;
  }

  /** The lists the frontend bit goes through, one per pattern applied. */
  const FrontendTree: seq<string> := ["frontend/src/app/main.ts", "frontend/src/app/app.module.ts",
                                      "frontend/README.md", "frontend/deploy.sh", "frontend/version.sh"]
  const AfterAppYaml: seq<string> := FrontendTree + ["app.yaml", "backend/app.yaml"]
  const AfterNestedAppYaml: seq<string> := FrontendTree + ["app.yaml"]
  const AfterReadme: seq<string> := ["frontend/src/app/main.ts", "frontend/src/app/app.module.ts",
                                     "frontend/deploy.sh", "frontend/version.sh", "app.yaml"]
  const AfterScripts: seq<string> := ["frontend/src/app/main.ts", "frontend/src/app/app.module.ts", "app.yaml"]

  /** The three inclusions of the frontend bit, each against the full list. */
  lemma FrontendInclusions()
    ensures Filter(TestGlob, TestFiles, "frontend/**") == FrontendTree
    ensures Filter(TestGlob, TestFiles, "app.yaml") == ["app.yaml", "backend/app.yaml"]
    ensures Filter(TestGlob, TestFiles, "frontend/version.sh") == ["frontend/version.sh"]
  {
    FirstFilesMatches(); MiddleFilesMatches(); LastFilesMatches();
    TestFilesMatches("frontend/**");
    TestFilesMatches("app.yaml");
    TestFilesMatches("frontend/version.sh");
  }

  /** The three exclusions of the frontend bit, each against the list so far. */
  lemma FrontendExclusions()
    ensures Filter(TestGlob, AfterAppYaml, "!*/app.yaml") == AfterNestedAppYaml
    ensures Filter(TestGlob, AfterNestedAppYaml, "!README.md") == AfterReadme
    ensures Filter(TestGlob, AfterReadme, "!*.sh") == AfterScripts
  {
    FilterConcat(TestGlob, FrontendTree, ["app.yaml", "backend/app.yaml"], "!*/app.yaml");
    FilterConcat(TestGlob, FrontendTree, ["app.yaml"], "!README.md");
  }

  /** The frontend bit: the inclusions add the frontend tree and both
      `app.yaml` files, the exclusions then drop the nested `app.yaml`,
      the READMEs and the scripts, and the last inclusion brings back
      `frontend/version.sh` from the full list. */
  lemma FrontendScenario()
    ensures MatchBit(TestGlob, TestFiles, FrontendPatterns)
      == BitResult(true, Some(AfterScripts + ["frontend/version.sh"]))
  {
    var ps := FrontendPatterns;
    FrontendInclusions();
    FrontendExclusions();
    var final := AfterScripts + ["frontend/version.sh"];
    assert MatchPatterns(TestGlob, TestFiles, AfterScripts, ps[5..]) == final;
    assert MatchPatterns(TestGlob, TestFiles, AfterReadme, ps[4..]) == final;
    assert MatchPatterns(TestGlob, TestFiles, AfterNestedAppYaml, ps[3..]) == final;
    assert MatchPatterns(TestGlob, TestFiles, AfterAppYaml, ps[2..]) == final;
    assert MatchPatterns(TestGlob, TestFiles, FrontendTree, ps[1..]) == final;
    assert ApplyPattern(TestGlob, TestFiles, [], ps[0]) == FrontendTree by {
      assert [] + FrontendTree == FrontendTree;
    }
  }

  /** A bit none of whose patterns matches stays clean, with an empty list. */
  lemma WorkerScenario()
    ensures MatchBit(TestGlob, TestFiles, ["worker/**"]) == BitResult(false, Some([]))
  {
    assert Filter(TestGlob, TestFiles, "worker/**") == [] by {
      FirstFilesMatches(); MiddleFilesMatches(); LastFilesMatches();
      TestFilesMatches("worker/**");
    }
    assert MatchPatterns(TestGlob, TestFiles, [], ["worker/**"]) == [];
  }

  /** A release event whose listing holds only the release itself: the
      run completes in the fail-safe with the fixed reason. */
  lemma NoPreviousReleaseScenario(inputs: Inputs, glob: Glob, compare: (string, string) -> CompareResponse)
    requires inputs.base == "" && inputs.head == ""
    ensures var r := Detect(InitialContext(inputs), glob, [Rule("frontend", ["frontend/**"])],
                            Release("v1.0.0"), Api([ReleaseInfo("v1.0.0", false, false)], compare));
      && r.Ok?
      && r.value.allDirty
      && r.value.dirtyBits == ["frontend"]
      && "frontend" in r.value.bits && r.value.bits["frontend"].dirty
      && r.value.allDirtyReason == Some(NoPreviousRelease)
  {
    var api := Api([ReleaseInfo("v1.0.0", false, false)], compare);
    var rules := [Rule("frontend", ["frontend/**"])];
    assert |Published(ListReleases(api))| < 2;
    NoPreviousReleaseFailsSafe(InitialContext(inputs), api, "v1.0.0");
    assert BitNames(rules) == ["frontend"];
    assert "frontend" in BitSet(rules);
  }
}

=== FILE: State.dfy ===
/** The per-run detection context and the errors that abort a run. */
module State {
  import opened Wrappers
  import opened ActionInputs

  /** Fatal errors: each aborts the run without a result. */
  datatype Error =
    | ReservedWord(bit: string)
    | UnsupportedEvent(eventName: string)
    | ReleaseOrder(newest: string, release: string)

  /** The state threaded through one run. `allDirty` is the fail-safe
      flag: once set, every later stage does nothing. */
  datatype Context = Context(
    inputs: Inputs,
    base: string,
    head: string,
    compareCommitsUrl: Option<string>,
    allDirty: bool,
    allDirtyReason: Option<string>)

  /** A run starts with only the inputs known. The commit range is always
      assigned before it is read, so its initial value is immaterial. */
  function InitialContext(inputs: Inputs): (c: Context)
    ensures c.inputs == inputs && !c.allDirty
    ensures c.allDirtyReason == None && c.compareCommitsUrl == None
    ensures FlagConsistent(c)
  {
    Context(inputs, "", "", None, false, None)
  }

  /** The fail-safe only ever goes from clear to set. */
  ghost predicate Monotone(c: Context, c': Context) {
    c.allDirty ==> c'.allDirty
  }

  /** The fail-safe flag and its reason are set together. */
  ghost predicate FlagConsistent(ctx: Context) {
    ctx.allDirty <==> ctx.allDirtyReason.Some?
  }

  /** Switches to the fail-safe with `message` as the reason; the range,
      the compare URL and the inputs stay as they were. */
  function MarkAllDirty(ctx: Context, message: string): (c: Context)
    ensures c.allDirty && c.allDirtyReason == Some(message) && FlagConsistent(c)
    ensures c.inputs == ctx.inputs && c.base == ctx.base && c.head == ctx.head
    ensures c.compareCommitsUrl == ctx.compareCommitsUrl
  {
    ctx.(allDirty := true, allDirtyReason := Some(message))
  }
}

=== FILE: Text.dfy ===
/** String helpers the pipeline needs: `split('/')` and decimal rendering. */
module Text {

  /** The position of the first occurrence of `c` in `s`. */
  function IndexOf(s: string, c: char): (i: nat)
    requires c in s
    ensures i < |s| && s[i] == c
    ensures c !in s[..i]
  {
    if s[0] == c then 0 else 1 + IndexOf(s[1..], c)
  }

  /** Concatenates the parts with `sep` between consecutive parts. */
  function Join(parts: seq<string>, sep: char): string
    requires |parts| >= 1
  {
    if |parts| == 1 then parts[0] else parts[0] + [sep] + Join(parts[1..], sep)
  }

  /** JavaScript's `s.split(sep)` for a one-character separator: always
      at least one part, none containing the separator, and the parts
      joined back with the separator give the input again. */
  function Split(s: string, sep: char): (parts: seq<string>)
    ensures |parts| >= 1
    ensures forall i :: 0 <= i < |parts| ==> sep !in parts[i]
    ensures Join(parts, sep) == s
    decreases |s|
  {
    if sep !in s then [s]
    else
      var i := IndexOf(s, sep);
      assert s == s[..i] + [sep] + s[i + 1..];
      [s[..i]] + Split(s[i + 1..], sep)
  }

  /** Splitting inverts joining when no part contains the separator. */
  lemma {:induction false} SplitJoin(parts: seq<string>, sep: char)
    requires |parts| >= 1
    requires forall i :: 0 <= i < |parts| ==> sep !in parts[i]
    ensures Split(Join(parts, sep), sep) == parts
    decreases |parts|
  {
    if |parts| == 1 {
    } else {
      var s := Join(parts, sep);
      var rest := Join(parts[1..], sep);
      assert s == parts[0] + [sep] + rest;
      assert sep in s by { assert s[|parts[0]|] == sep; }
      assert IndexOf(s, sep) == |parts[0]| by {
        IndexOfAfterPrefix(parts[0], sep, [sep] + rest);
      }
      assert s[..|parts[0]|] == parts[0];
      assert s[|parts[0]| + 1..] == rest;
      SplitJoin(parts[1..], sep);
    }
  }

  /** The first separator in `p + q` is the first one of `q` when `p` has none. */
  lemma {:induction false} IndexOfAfterPrefix(p: string, c: char, q: string)
    requires c !in p && c in q
    ensures c in p + q
    ensures IndexOf(p + q, c) == |p| + IndexOf(q, c)
    decreases |p|
  {
    assert (p + q)[|p| + IndexOf(q, c)] == c;
    if |p| > 0 {
      assert (p + q)[1..] == p[1..] + q;
      IndexOfAfterPrefix(p[1..], c, q);
    }
  }

  /** The decimal digit for `d`. */
  function Digit(d: nat): (c: char)
    requires d < 10
    ensures '0' <= c <= '9'
  {
    ('0' as int + d) as char
  }

  /** JavaScript's rendering of a non-negative integer in a template string. */
  function NatToString(n: nat): (s: string)
    ensures |s| >= 1
    ensures forall i :: 0 <= i < |s| ==> '0' <= s[i] <= '9'
    ensures n > 0 ==> s[0] != '0'
    decreases n
  {
    if n < 10 then [Digit(n)] else NatToString(n / 10) + [Digit(n % 10)]
  }
}

=== FILE: Wrappers.dfy ===
/** Failure-compatible wrappers shared by every stage of the pipeline. */
module Wrappers {

  /** An optional value: a TypeScript property that may be `undefined`. */
  datatype Option<+T> = None | Some(value: T) {

    /** The value, or `default` when absent (TypeScript's `??`). */
    function GetOr(default: T): T {
      match this
      case Some(v) => v
      case None => default
    }
  }

  /** Either a value or the error a stage throws. */
  datatype Result<+T, +E> = Ok(value: T) | Err(error: E) {

    predicate IsFailure() {
      Err?
    }

    function PropagateFailure<U>(): Result<U, E>
      requires Err?
    {
      Err(error)
    }

    function Extract(): T
      requires Ok?
    {
      value
    }
  }
}
